=== FILE: README.md ===
# darkroom-url-builder, modelled in Dafny

A model of the URL signer for the darkroom image service. A factory is
created with one darkroom host and one salt. Builders made by it collect a
resource identifier, a width, a height and a filename. `info()` and `url()`
then produce a URL of the shape `host / action / resource:hash`, where
`hash` is an MD5 hex digest of the wrapped action, the resource and the salt,
in that order. A separate filename escaper keeps a trailing extension and
slugs everything before it.

Modules, one per source file plus three helpers:

- `Wrappers`: `Option` for a value that may be `undefined`, and `Result` for
  a call that may throw.
- `Decimal`: how a JavaScript integer is rendered as text when an action array
  is joined, and the parser that undoes it.
- `Segments`: `Array.prototype.join` with a one-character separator, and the
  split that undoes it.
- `ActionHash` (get-action-hash.js): the signature. MD5 is a parameter
  `md5: string -> string`. What is known of it is the ghost predicate
  `IsMd5Like`: every output is 32 lower-case hex digits.
- `UrlConstruction` (construct-url.js): action normalisation and URL
  assembly. It also defines `Decompose` and `Verify`. These state how a
  receiving service reads a signed URL back, and they are the reference
  against which the assembly is proved.
- `FilenameEscaping` (escape-filename.js): `slugg` is a parameter
  `slug: string -> string`. `MatchesAt` states what the extension regular
  expression matches.
- `UrlBuilder` (url-builder.js): the factory, an immutable `Builder` value,
  its setters, `Info` and `Url`.

The repository's tests (test/url-builder.test.js) expect behaviour that the
code does not have. The model follows the code, and each difference is proved or
recorded:

- `url()` cannot fail. Its guard at url-builder.js:43 tests the prototype
  method `this.resource`, not `_resource`. With no resource the URL signs the
  text `undefined` (`UrlWithoutResource`). The tests expect an error.
- URLs contain `//` after the host and again before the resource. The action
  already carries its own slashes when construct-url.js:14 joins the pieces with `/`
  (`ConstructUrl`, `WidthOnlyExample`). The tests expect single slashes.
- An empty filename escapes to `undefined` (`None`), not to `""`
  (`EscapeFilename`, `EscapeExamples`).
- There is no `mode()` setter, no host rotation and no numeric check in
  `width()` or `height()`. Every builder of a factory uses the factory's one
  host (`ChainKeepsCredentials`, `UrlStartsWithFactoryHost`).
- `getActionHash` hashes its action exactly as given. The tests expect it to
  wrap the action in slashes itself. Only `constructUrl` adds those slashes,
  before it calls the hash (`SignHashesActionAsGiven`).
- `constructUrl` has no filename or format parameter. `url()` appends the raw
  filename itself and never calls the escaper (`FilenameOnlyAppends`).

## Model

| member | source | states |
|---|---|---|
| ActionHash.Sign | get-action-hash.js:5-9 | the signature is a 32-digit lower-case hex string whenever MD5 is one; the order action, resource, salt is checked against an independent recomputation by `ConstructUrlVerifies` |
| ActionHash.SignHashesActionAsGiven | get-action-hash.js:7 | the hashed string starts with the action exactly as given and ends with the salt, and is never the slash-wrapped form the tests expect |
| UrlConstruction.ConstructUrl | construct-url.js:5-16 | the URL is exactly host, `//`, the action path, `//`, the resource, `:`, and the signature of the slash-wrapped action; with MD5 the last 33 characters are `:` and a hex digest, so there is no suffix after the hash |
| UrlConstruction.ActionTextSplits | construct-url.js:7-9 | a non-empty array action whose text elements hold no `/`, joined with `/`, splits back into its rendered elements; every array `url()` builds is of this kind (`SelectActionSegments`) |
| UrlConstruction.DecomposeConstructUrl | construct-url.js:11-14 | for an action path with no `//` that does not end in `/`, a constructed URL reads back into exactly that action path, the resource and the signature that went into it; every action `url()` and `info()` pick is of this kind (`SelectActionDelimitable`) |
| UrlConstruction.ConstructUrlVerifies | construct-url.js:13-14 | for an action path with no `//` that does not end in `/`, the hash in a constructed URL equals MD5 of `/`, the action, `/`, the resource and the salt, recomputed from the URL's pieces without the signing code; this covers every action `url()` and `info()` pick (`SelectActionDelimitable`) |
| UrlConstruction.ConstructUrlDeterministic | construct-url.js:5-16 | the URL depends on MD5 only through its value on the one signed string, so equal arguments give equal URLs |
| Segments.SplitJoin | construct-url.js:8 | splitting at `/` undoes `join('/')` when no element contains a slash |
| Segments.JoinSplit | construct-url.js:8 | `join('/')` undoes splitting at `/` for every string |
| Decimal.NatToString | construct-url.js:8 | a non-negative number renders as a non-empty run of digits with no leading zero |
| Decimal.IntToStringRoundTrip | construct-url.js:8 | a width or height rendered into the path parses back to the same integer |
| FilenameEscaping.TrailingRunStart | escape-filename.js:10 | the result is where the longest trailing run of `[0-9A-Za-z_-]` characters starts |
| FilenameEscaping.ExtensionIndex | escape-filename.js:10-11 | the index found is a match of the extension pattern, and every match is that index; it is the last dot of the name |
| FilenameEscaping.EscapeFilename | escape-filename.js:5-17 | an empty name gives `undefined`; with a match at `i` the result is the slug of the part before `i` followed by the extension unchanged; with no match it is the slug of the whole name |
| FilenameEscaping.EscapeKeepsExtension | escape-filename.js:14 | whenever an extension matched, the escaped name ends with it verbatim, case included, and the extension holds no dot |
| FilenameEscaping.EscapeWithIdentity | escape-filename.js:14-15 | with the identity as slug, escaping returns the name unchanged, so splitting at the extension loses nothing |
| FilenameEscaping.ExtensionSurvivesPrefix | escape-filename.js:10-14 | a matched extension is still matched at the same place when the text in front of it is replaced |
| FilenameEscaping.EscapeIdempotent | escape-filename.js:10-15 | escaping an escaped, non-empty name changes nothing, given a slug that is idempotent and emits no dot |
| FilenameEscaping.ForeignCharBlocksExtension | escape-filename.js:15 | a character outside the class after the last dot, such as `:`, blocks detection, and the whole name is slugged |
| FilenameEscaping.EscapeExamples | test/url-builder.test.js:29-38 | the test cases' split between slugged part and kept extension, for any slug, and `undefined` for the empty name |
| UrlBuilder.CreateBuilder | url-builder.js:5-10 | the factory fails exactly when the host or the salt is absent or empty, and otherwise keeps both unchanged |
| UrlBuilder.ChainKeepsCredentials | url-builder.js:12-35 | no chain of setters changes a builder's host or salt, so there is no host rotation |
| UrlBuilder.SettersCommute | url-builder.js:17-35 | each setter writes only its own field: setters of different fields commute, and for one field the later call wins |
| UrlBuilder.SettersReachUrl | url-builder.js:17-35 | each setter stores its argument: after `.resource(r).width(w).height(h)` the URL reads back into exactly `r`, `w` and `h` and passes the service's check |
| UrlBuilder.UrlStartsWithFactoryHost | url-builder.js:47-55 | the URL of any builder from a factory, after any setters, starts with the factory's host |
| UrlBuilder.SelectActionSegments | url-builder.js:47-55 | the action path is `[w, h]` when both are set, `[0, h]` for height only, `[w]` for width only, and `original` otherwise, with zero counting as unset |
| UrlBuilder.DistinctSizesDistinctPaths | url-builder.js:47-55 | builders whose effective width or height differ get different action paths |
| UrlBuilder.SameSizesSamePath | url-builder.js:47-55 | builders with the same effective width and height get the same action path, whether a dimension was left unset or set to 0 |
| UrlBuilder.ZeroCountsAsUnset | url-builder.js:47-55 | a width or height of 0 is falsy and picks the same action as an unset one; `width(0)` alone signs `original` |
| UrlBuilder.SelectActionReadsBack | url-builder.js:47-55 | reading the action path back gives exactly the effective width and height, with unset and zero both read as 0 |
| UrlBuilder.Info | url-builder.js:37-39 | the metadata URL starts with the host, `//info//`, the resource text and `:` |
| UrlBuilder.InfoReadsBack | url-builder.js:37-39 | `info()` reads back as the `info` action on the resource, passes the service's check, and does not depend on width, height or filename |
| UrlBuilder.Url | url-builder.js:41-57 | `url()` always succeeds; the URL starts with the host and `//`; with a truthy filename it ends with `/` and the raw filename; otherwise it ends with `:` and the digest |
| UrlBuilder.UrlReadsBack | url-builder.js:47-55 | without a filename, the URL reads back into the builder's resource text and effective width and height, and passes the service's check |
| UrlBuilder.FilenameOnlyAppends | url-builder.js:45-54 | a non-empty filename only appends `/` and the raw filename to the URL the builder gives without one |
| UrlBuilder.UrlWithoutResource | url-builder.js:43 | the missing-resource guard never fires: with no resource, `url()` succeeds and signs `original` over the text `undefined` |
| UrlBuilder.WidthOnlyExample | url-builder.js:51-52 | width 100 alone gives `host//100//resource:md5("/100/" + resource + salt)/filename` |

## Left out

- MD5 (Node's `crypto`) and `slugg` are foreign code. Both are function
  parameters without bodies. Of MD5 only its 32-hex-digit output is assumed.
  Nothing is assumed of `slugg` except in `EscapeIdempotent`.
- EscapeIdempotent: holds only for a slug that is idempotent and never emits
  a dot, and only when the escaped name is non-empty. The real `slugg` cannot
  be inspected here. The source is not idempotent on an empty result: if
  `slugg("???")` is `""`, escaping `"???"` gives `""`, and escaping that gives
  `undefined`.
- Dynamic typing is not modelled. A non-string filename passed to
  `escapeFilename` is left out: `0` and `false` give `undefined`, and `{}`
  or `[]` throw at the `match` call. So are NaN, fractional or string-typed
  widths and heights, and an array of hosts, which construct-url.js:14 would coerce to
  text. Widths and heights are integers, and host, salt, resource and
  filename are strings.
- Decimal.IntToString: renders every integer in plain decimal. JavaScript
  switches to exponent notation from 1e21 and loses precision above 2^53.
- Calling a setter with no argument, which sets the field back to
  `undefined`, is left out. Each setter takes a value. A builder is unset only
  in the fields no setter has written.
- The builder's object identity is left out: setters return `this` in the
  source and return the updated value in the model. Builders are never shared
  here, so chained calls see the same states.
- The tests exercise a `mode()` setter, host rotation and numeric validation
  of widths and heights. The code has none of these, so none is modelled.
- The test harness and its `url.URL` parsing are left out.

=== FILE: action_hash.dfy ===
/** The signature over an action path (get-action-hash.js). The MD5 digest
    comes from Node's `crypto` module, which this model cannot see: it is a
    parameter, and what is known of it is the shape of its output. */
module ActionHash {

  predicate IsLowerHex(c: char) {
    '0' <= c <= '9' || 'a' <= c <= 'f'
  }

  /** An MD5 digest rendered by `digest('hex')`: 32 lower-case hex digits. */
  predicate IsDigest(h: string) {
    |h| == 32 && forall i :: 0 <= i < |h| ==> IsLowerHex(h[i])
  }

  /** What is assumed of the foreign MD5: every input yields a hex digest. */
  ghost predicate IsMd5Like(md5: string -> string) {
    forall s :: IsDigest(md5(s))
  }

  /** The signature of `action` for `uri` under `salt`: MD5 over the three
      concatenated with no separator, action first and salt last. */
  function Sign(md5: string -> string, salt: string, action: string, uri: string): (h: string)
    ensures IsMd5Like(md5) ==> IsDigest(h)
    ensures h == md5(action + uri + salt)
  {
    md5(action + uri + salt)
  }

  /** The action is hashed exactly as given: the signed string begins with it
      and ends with the salt, and no slashes are put around it. The test suite
      expects `getActionHash(salt, [a], uri)` to hash `"/" + a + "/" + uri + salt`;
      only `constructUrl` adds those slashes, before it calls the hash. */
  lemma SignHashesActionAsGiven(salt: string, action: string, uri: string)
    ensures var signed := Sign(s => s, salt, action, uri);
            && |signed| == |action| + |uri| + |salt|
            && signed[..|action|] == action
            && signed[|signed| - |salt|..] == salt
            && signed != "/" + action + "/" + uri + salt
  {
  }
}

=== FILE: construct_url.dfy ===
/** URL assembly (construct-url.js): the action is normalised to a path,
    wrapped in slashes, signed together with the resource identifier and the
    salt, and joined to the darkroom host.

    The module also states the reading a receiving darkroom service must apply
    to such a URL (`Decompose`, `Verify`) and proves that it recovers what was
    signed: that reading is the partner against which the assembly is checked. */
module UrlConstruction {
  import opened Wrappers
  import opened Decimal
  import opened Segments
  import opened ActionHash

  /** One element of an action array: the builder puts numbers there, other
      callers may put strings. */
  datatype Part = Num(n: int) | Text(s: string)

  /** The `action` argument of `constructUrl`: a bare string or an array. */
  datatype Action = Named(name: string) | Parts(parts: seq<Part>)

  /** How `join` renders one array element. */
  function RenderPart(p: Part): string {
    match p
    case Num(n) => IntToString(n)
    case Text(s) => s
  }

  function RenderParts(ps: seq<Part>): (r: seq<string>)
    ensures |r| == |ps|
    ensures forall k :: 0 <= k < |ps| ==> r[k] == RenderPart(ps[k])
  {
    seq(|ps|, k requires 0 <= k < |ps| => RenderPart(ps[k]))
  }

  /** The action after the `action.join('/')` of `constructUrl`: an array
      joined with `/`, a string as is. */
  function ActionText(a: Action): string {
    match a
    case Named(name) => name
    case Parts(ps) => Join(RenderParts(ps), '/')
  }

  /** The action as `constructUrl` signs and embeds it: wrapped in one slash
      on each side. */
  function WrapAction(a: Action): string {
    "/" + ActionText(a) + "/"
  }

  /** `constructUrl(darkroomUrl, salt, action, uri)`. The three pieces are
      joined with `/` although the action already carries slashes of its own,
      so the URL has `//` after the host and again before the resource. */
  function ConstructUrl(md5: string -> string, darkroomUrl: string, salt: string, action: Action, uri: string): (r: string)
    ensures r == darkroomUrl + "//" + ActionText(action) + "//" + uri + ":"
                 + Sign(md5, salt, "/" + ActionText(action) + "/", uri)
    ensures IsMd5Like(md5) ==> |r| >= 33 && r[|r| - 33] == ':' && IsDigest(r[|r| - 32..])
  {
    var wrapped := WrapAction(action);
    var hash := Sign(md5, salt, wrapped, uri);
    var pieces := [darkroomUrl, wrapped, uri + ":" + hash];
    assert pieces[1..][1..] == [uri + ":" + hash];
    assert Join(pieces[1..], '/') == wrapped + "/" + (uri + ":" + hash);
    assert Join(pieces, '/') == darkroomUrl + "/" + (wrapped + "/" + (uri + ":" + hash));
    Join(pieces, '/')
  }

  /** The URL depends on the digest function only through its value on the
      one signed string: equal arguments give equal URLs. */
  lemma ConstructUrlDeterministic(md5: string -> string, md5': string -> string, darkroomUrl: string,
                                  salt: string, action: Action, uri: string)
    requires md5(WrapAction(action) + uri + salt) == md5'(WrapAction(action) + uri + salt)
    ensures ConstructUrl(md5, darkroomUrl, salt, action, uri) == ConstructUrl(md5', darkroomUrl, salt, action, uri)
  {
  }

  // ---------------------------------------------------------------------------
  // Action paths as the service reads them

  predicate SlashFree(s: string) {
    '/' !in s
  }

  lemma IntToStringSlashFree(i: int)
    ensures SlashFree(IntToString(i))
  {
  }

  /** Splitting an array action's path at `/` gives back the rendered
      elements, when no string element carries a slash itself. */
  lemma ActionTextSplits(ps: seq<Part>)
    requires |ps| >= 1
    requires forall k :: 0 <= k < |ps| ==> ps[k].Text? ==> SlashFree(ps[k].s)
    ensures Split(ActionText(Parts(ps)), '/') == RenderParts(ps)
  {
    var rs := RenderParts(ps);
    forall k | 0 <= k < |rs| ensures '/' !in rs[k] {
      if ps[k].Num? {
        IntToStringSlashFree(ps[k].n);
      }
    }
    SplitJoin(rs, '/');
  }

  // ---------------------------------------------------------------------------
  // The receiving side: reading a signed URL back

  /** The pieces a darkroom service recovers from a signed URL. */
  datatype SignedPath = SignedPath(action: string, uri: string, hash: string)

  predicate DoubleSlashAt(s: string, j: int) {
    0 <= j && j + 1 < |s| && s[j] == '/' && s[j + 1] == '/'
  }

  /** The first `//` in `s` at or after `from`. */
  function FirstDoubleSlash(s: string, from: nat): (r: Option<nat>)
    requires from <= |s|
    ensures r.Some? ==> from <= r.value && DoubleSlashAt(s, r.value)
    ensures r.Some? ==> forall j :: from <= j < r.value ==> !DoubleSlashAt(s, j)
    ensures r.None? ==> forall j :: from <= j < |s| ==> !DoubleSlashAt(s, j)
    decreases |s| - from
  {
    if from + 1 >= |s| then None
    else if DoubleSlashAt(s, from) then Some(from)
    else FirstDoubleSlash(s, from + 1)
  }

  /** An action path after which the URL's `//` separator can be found: no
      `//` starts inside it, even with the following slash appended. Paths of
      the builder's actions are of this kind. */
  predicate Delimitable(a: string) {
    forall j :: 0 <= j < |a| ==> !DoubleSlashAt(a + "/", j)
  }

  /** Reads `host//action//uri:hash`, with a 32-character hash, back into its
      pieces; the action ends at the first `//`. */
  function Decompose(host: string, url: string): (r: Option<SignedPath>)
    ensures r.Some? ==> |r.value.hash| == 32
    ensures r.Some? ==> url == host + "//" + r.value.action + "//" + r.value.uri + ":" + r.value.hash
  {
    var lead := host + "//";
    if |url| < |lead| + 33 || url[..|lead|] != lead then None
    else
      var rest := url[|lead|..];
      var body := rest[..|rest| - 33];
      if rest[|rest| - 33] != ':' then None
      else
        match FirstDoubleSlash(body, 0)
        case None => None
        case Some(p) =>
          var r := SignedPath(body[..p], body[p + 2..], rest[|rest| - 32..]);
          assert body == r.action + "//" + r.uri;
          assert rest == body + ":" + r.hash;
          assert url == lead + rest;
          Some(r)
  }

  /** The service's check: the hash in the URL is MD5 of the slash-wrapped
      action, then the resource, then the shared salt, the digest the test
      suite computes independently of the signing code. */
  predicate Verify(md5: string -> string, salt: string, host: string, url: string) {
    match Decompose(host, url)
    case None => false
    case Some(p) => md5("/" + p.action + "/" + p.uri + salt) == p.hash
  }

  /** In `a//uri` the first `//` is the one after `a`. */
  lemma FirstDoubleSlashAfter(a: string, uri: string)
    requires Delimitable(a)
    ensures FirstDoubleSlash(a + "//" + uri, 0) == Some(|a|)
  {
    var body := a + "//" + uri;
    assert DoubleSlashAt(body, |a|);
    forall j | 0 <= j < |a| ensures !DoubleSlashAt(body, j) {
      assert !DoubleSlashAt(a + "/", j);
      assert body[j] == (a + "/")[j];
      assert body[j + 1] == (a + "/")[j + 1];
    }
  }

  /** `Decompose` inverts the `[darkroomUrl, action, uri + ':' + hash].join('/')`
      layout of `constructUrl`. */
  lemma DecomposeLayout(host: string, a: string, uri: string, h: string)
    requires |h| == 32
    requires Delimitable(a)
    ensures Decompose(host, host + "//" + a + "//" + uri + ":" + h) == Some(SignedPath(a, uri, h))
  {
    var lead := host + "//";
    var body := a + "//" + uri;
    var rest := body + ":" + h;
    var url := host + "//" + a + "//" + uri + ":" + h;
    assert url == lead + rest;
    assert url[..|lead|] == lead;
    assert url[|lead|..] == rest;
    assert rest[..|rest| - 33] == body;
    assert rest[|rest| - 33] == ':';
    assert rest[|rest| - 32..] == h;
    FirstDoubleSlashAfter(a, uri);
    assert body[..|a|] == a;
    assert body[|a| + 2..] == uri;
  }

  /** Reading a constructed URL recovers exactly the action path, the
      resource identifier and the signature that went into it. */
  lemma DecomposeConstructUrl(md5: string -> string, host: string, salt: string, action: Action, uri: string)
    requires IsMd5Like(md5)
    requires Delimitable(ActionText(action))
    ensures Decompose(host, ConstructUrl(md5, host, salt, action, uri))
            == Some(SignedPath(ActionText(action), uri, Sign(md5, salt, WrapAction(action), uri)))
  {
    DecomposeLayout(host, ActionText(action), uri, Sign(md5, salt, WrapAction(action), uri));
  }

  /** Every constructed URL passes the service's check. */
  lemma ConstructUrlVerifies(md5: string -> string, host: string, salt: string, action: Action, uri: string)
    requires IsMd5Like(md5)
    requires Delimitable(ActionText(action))
    ensures Verify(md5, salt, host, ConstructUrl(md5, host, salt, action, uri))
  {
    DecomposeConstructUrl(md5, host, salt, action, uri);
  }
}

=== FILE: decimal.dfy ===
/** Decimal rendering of integers, as JavaScript's `String(n)` produces it for
    an integral number (the builder's widths and heights are rendered this way
    when `Array.prototype.join` turns an action array into a path), and the
    matching parser a reader of the path would apply. */
module Decimal {
  import opened Wrappers

  predicate IsDigit(c: char) {
    '0' <= c <= '9'
  }

  predicate AllDigits(s: string) {
    forall i :: 0 <= i < |s| ==> IsDigit(s[i])
  }

  function DigitChar(d: nat): (c: char)
    requires d < 10
    ensures IsDigit(c)
    ensures DigitValue(c) == d
  {
    "0123456789"[d]
  }

  function DigitValue(c: char): (d: nat)
    requires IsDigit(c)
    ensures d < 10
  {
    (c as int - '0' as int) as nat
  }

  /** The shortest decimal numeral of `n`: no sign, no leading zero. */
  function NatToString(n: nat): (s: string)
    ensures |s| >= 1
    ensures AllDigits(s)
    ensures s[0] == '0' ==> n == 0
    decreases n
  {
    if n < 10 then [DigitChar(n)] else NatToString(n / 10) + [DigitChar(n % 10)]
  }

  /** `String(i)` for an integral JavaScript number: a leading `-` for negatives. */
  function IntToString(i: int): (s: string)
    ensures |s| >= 1
    ensures forall k :: 0 <= k < |s| ==> IsDigit(s[k]) || (k == 0 && s[k] == '-')
  {
    if i < 0 then "-" + NatToString(-i) else NatToString(i)
  }

  /** The value of a non-empty run of decimal digits, most significant first. */
  function DigitsValue(s: string): nat
    requires |s| >= 1 && AllDigits(s)
    decreases |s|
  {
    if |s| == 1 then DigitValue(s[0])
    else DigitsValue(s[..|s| - 1]) * 10 + DigitValue(s[|s| - 1])
  }

  function ParseNat(s: string): (r: Option<nat>)
    ensures r.Some? <==> |s| >= 1 && AllDigits(s)
  {
    if |s| >= 1 && AllDigits(s) then Some(DigitsValue(s)) else None
  }

  /** Reads an optionally negative decimal numeral back into an integer. */
  function ParseInt(s: string): (r: Option<int>)
    ensures r.Some? ==> |s| >= 1
  {
    if |s| >= 1 && s[0] == '-' then
      match ParseNat(s[1..])
      case Some(n) => Some(-(n as int))
      case None => None
    else
      match ParseNat(s)
      case Some(n) => Some(n as int)
      case None => None
  }

  lemma {:induction false} NatToStringRoundTrip(n: nat)
    ensures DigitsValue(NatToString(n)) == n
    decreases n
  {
    if n >= 10 {
      var s := NatToString(n);
      assert s == NatToString(n / 10) + [DigitChar(n % 10)];
      assert s[..|s| - 1] == NatToString(n / 10);
      NatToStringRoundTrip(n / 10);
    }
  }

  /** Rendering and parsing are inverse: every integer survives the trip
      through its decimal numeral, so distinct integers render distinctly. */
  lemma IntToStringRoundTrip(i: int)
    ensures ParseInt(IntToString(i)) == Some(i)
  {
    if i < 0 {
      var s := IntToString(i);
      assert s[1..] == NatToString(-i);
      NatToStringRoundTrip(-i);
    } else {
      NatToStringRoundTrip(i);
      assert NatToString(i)[0] != '-';
    }
  }
}

=== FILE: escape_filename.dfy ===
/** Filename escaping (escape-filename.js): a trailing extension matched by
    `/\.[0-9a-z_\-]+$/i` is kept verbatim and everything before it is passed
    through the foreign `slugg` function, which is a parameter here.

    `MatchesAt` states what the regular expression matches; the function that
    finds the extension is proved to agree with it in both directions. */
module FilenameEscaping {
  import opened Wrappers

  /** The character class `[0-9a-z_\-]` under the `i` flag. Without the `u`
      flag JavaScript's case folding maps no non-ASCII character onto an ASCII
      letter, so the class is exactly these 64 characters. */
  predicate IsExtensionChar(c: char) {
    '0' <= c <= '9' || 'a' <= c <= 'z' || 'A' <= c <= 'Z' || c == '_' || c == '-'
  }

  /** The regular expression matches `name` from index `i` to the end: a dot,
      then one or more class characters up to the end of the input. */
  predicate MatchesAt(name: string, i: int) {
    0 <= i && i + 2 <= |name| && name[i] == '.'
    && forall j :: i < j < |name| ==> IsExtensionChar(name[j])
  }

  /** Where the longest run of class characters at the end of `name` starts. */
  function TrailingRunStart(name: string): (k: nat)
    ensures k <= |name|
    ensures forall j :: k <= j < |name| ==> IsExtensionChar(name[j])
    ensures k == 0 || !IsExtensionChar(name[k - 1])
    decreases |name|
  {
    if |name| == 0 || !IsExtensionChar(name[|name| - 1]) then |name|
    else TrailingRunStart(name[..|name| - 1])
  }

  /** `match.index` of `name.match(extensionRegExp)`, or `None` when the
      match is `null`. */
  function ExtensionIndex(name: string): (r: Option<nat>)
    ensures forall i :: MatchesAt(name, i) <==> r == Some(i)
    ensures r.Some? ==> forall j :: r.value < j < |name| ==> name[j] != '.'
  {
    var k := TrailingRunStart(name);
    assert forall i :: MatchesAt(name, i) ==> k == i + 1 by {
      forall i | MatchesAt(name, i) ensures k == i + 1 {
        assert !IsExtensionChar(name[i]);
      }
    }
    if 1 <= k < |name| && name[k - 1] == '.' then Some(k - 1) else None
  }

  /** `escapeFilename(name)` with `slugg` as `slug`. An empty name yields
      `undefined` (`None`), not the empty string. */
  function EscapeFilename(slug: string -> string, name: string): (r: Option<string>)
    ensures r.None? <==> name == ""
    ensures forall i :: MatchesAt(name, i) ==> r == Some(slug(name[..i]) + name[i..])
    ensures name != "" && (forall i :: !MatchesAt(name, i)) ==> r == Some(slug(name))
  {
    if name == "" then None
    else
      match ExtensionIndex(name)
      case Some(i) => Some(slug(name[..i]) + name[i..])
      case None => Some(slug(name))
  }

  /** Whenever the extension matched, the escaped name ends with it, case and
      all, and the extension holds no dot of its own. */
  lemma EscapeKeepsExtension(slug: string -> string, name: string, i: int)
    requires MatchesAt(name, i)
    ensures EscapeFilename(slug, name).Some?
    ensures var r := EscapeFilename(slug, name).value;
            |r| >= |name| - i && r[|r| - (|name| - i)..] == name[i..]
    ensures forall j :: i < j < |name| ==> name[j] != '.'
  {
  }

  /** With the identity in place of `slugg` escaping loses nothing: the cut
      between name and extension is a partition of the input. */
  lemma EscapeWithIdentity(name: string)
    requires name != ""
    ensures EscapeFilename(s => s, name) == Some(name)
  {
    match ExtensionIndex(name)
    case Some(i) =>
      assert name[..i] + name[i..] == name;
    case None =>
  }

  /** A matched extension stays matched, at the same place relative to its
      end, whatever replaces the text in front of it. */
  lemma ExtensionSurvivesPrefix(name: string, i: int, prefix: string)
    requires MatchesAt(name, i)
    ensures MatchesAt(prefix + name[i..], |prefix|)
    ensures ExtensionIndex(prefix + name[i..]) == Some(|prefix|)
  {
  }

  /** Escaping an escaped name changes nothing, as long as `slugg` is
      idempotent and never emits a dot (real slugs turn dots into hyphens). */
  lemma EscapeIdempotent(slug: string -> string, name: string)
    requires forall s :: slug(slug(s)) == slug(s)
    requires forall s :: '.' !in slug(s)
    requires EscapeFilename(slug, name).Some?
    requires EscapeFilename(slug, name).value != ""
    ensures EscapeFilename(slug, EscapeFilename(slug, name).value) == EscapeFilename(slug, name)
  {
    var r := EscapeFilename(slug, name).value;
    match ExtensionIndex(name)
    case Some(i) =>
      var base := slug(name[..i]);
      assert r == base + name[i..];
      ExtensionSurvivesPrefix(name, i, base);
      assert r[..|base|] == base;
      assert r[|base|..] == name[i..];
    case None =>
      assert r == slug(name);
      forall i | 0 <= i < |r| ensures !MatchesAt(r, i) {
        assert r[i] in slug(name);
      }
  }

  /** A character outside the class and after the last dot (the `:` of
      `pathy.jp:g`) blocks detection: the whole name is slugged. */
  lemma ForeignCharBlocksExtension(slug: string -> string, name: string, j: int)
    requires 0 <= j < |name| && name[j] != '.' && !IsExtensionChar(name[j])
    requires forall k :: j < k < |name| ==> name[k] != '.'
    ensures ExtensionIndex(name) == None
    ensures EscapeFilename(slug, name) == Some(slug(name))
  {
  }

  /** The cases of the test suite that do not depend on `slugg` itself. */
  lemma EscapeExamples(slug: string -> string)
    ensures EscapeFilename(slug, "pathy/pathy.jpg") == Some(slug("pathy/pathy") + ".jpg")
    ensures EscapeFilename(slug, "?query.png") == Some(slug("?query") + ".png")
    ensures EscapeFilename(slug, "fa-la-di-da.png") == Some(slug("fa-la-di-da") + ".png")
    ensures EscapeFilename(slug, "pathy/pathy.jp:g") == Some(slug("pathy/pathy.jp:g"))
    ensures EscapeFilename(slug, "") == None
  {
    assert MatchesAt("pathy/pathy.jpg", 11);
    assert "pathy/pathy.jpg"[..11] == "pathy/pathy";
    assert MatchesAt("?query.png", 6);
    assert "?query.png"[..6] == "?query";
    assert MatchesAt("fa-la-di-da.png", 11);
    assert "fa-la-di-da.png"[..11] == "fa-la-di-da";
    assert !IsExtensionChar("pathy/pathy.jp:g"[14]);
  }
}

=== FILE: segments.dfy ===
/** Joining strings with a one-character separator, as JavaScript's
    `Array.prototype.join(sep)` does, and the inverse split that a reader of a
    `/`-separated path applies. */
module Segments {

  /** `xs.join([sep])`: the empty array joins to the empty string. */
  function Join(xs: seq<string>, sep: char): (r: string)
    ensures |xs| == 1 ==> r == xs[0]
    decreases |xs|
  {
    if |xs| == 0 then ""
    else if |xs| == 1 then xs[0]
    else xs[0] + [sep] + Join(xs[1..], sep)
  }

  /** Cuts `s` at every occurrence of `sep`; always at least one piece. */
  function Split(s: string, sep: char): (r: seq<string>)
    ensures |r| >= 1
    ensures forall k :: 0 <= k < |r| ==> sep !in r[k]
    decreases |s|
  {
    if |s| == 0 then [""]
    else
      var rest := Split(s[1..], sep);
      if s[0] == sep then [""] + rest
      else [[s[0]] + rest[0]] + rest[1..]
  }

  lemma {:induction false} SplitFree(x: string, sep: char)
    requires sep !in x
    ensures Split(x, sep) == [x]
    decreases |x|
  {
    if |x| > 0 {
      assert sep !in x[1..] by {
        forall c | c in x[1..] ensures c != sep {
          assert c in x;
        }
      }
      SplitFree(x[1..], sep);
      assert [x[0]] + x[1..] == x;
    }
  }

  lemma {:induction false} SplitCons(x: string, sep: char, t: string)
    requires sep !in x
    ensures Split(x + [sep] + t, sep) == [x] + Split(t, sep)
    decreases |x|
  {
    if |x| == 0 {
      assert x + [sep] + t == [sep] + t;
      assert ([sep] + t)[1..] == t;
    } else {
      var s := x + [sep] + t;
      assert s[0] == x[0];
      assert s[1..] == x[1..] + [sep] + t;
      assert sep !in x[1..] by {
        forall c | c in x[1..] ensures c != sep {
          assert c in x;
        }
      }
      SplitCons(x[1..], sep, t);
      assert [x[0]] + x[1..] == x;
    }
  }

  /** Splitting undoes joining whenever no piece contains the separator. */
  lemma {:induction false} SplitJoin(xs: seq<string>, sep: char)
    requires |xs| >= 1
    requires forall k :: 0 <= k < |xs| ==> sep !in xs[k]
    ensures Split(Join(xs, sep), sep) == xs
    decreases |xs|
  {
    if |xs| == 1 {
      SplitFree(xs[0], sep);
    } else {
      SplitJoin(xs[1..], sep);
      SplitCons(xs[0], sep, Join(xs[1..], sep));
      assert [xs[0]] + xs[1..] == xs;
    }
  }

  /** Joining undoes splitting, for every string. */
  lemma {:induction false} JoinSplit(s: string, sep: char)
    ensures Join(Split(s, sep), sep) == s
    decreases |s|
  {
    if |s| > 0 {
      var rest := Split(s[1..], sep);
      JoinSplit(s[1..], sep);
      if s[0] == sep {
        assert ([""] + rest)[1..] == rest;
        assert s == [s[0]] + s[1..];
      } else {
        var head := [s[0]] + rest[0];
        if |rest| == 1 {
          assert Join([head], sep) == head;
          assert Join(rest, sep) == rest[0];
        } else {
          assert ([head] + rest[1..])[1..] == rest[1..];
          assert Join(rest, sep) == rest[0] + [sep] + Join(rest[1..], sep);
        }
        assert s == [s[0]] + s[1..];
      }
    }
  }
}

=== FILE: url_builder.dfy ===
/** The fluent builder (url-builder.js): a factory closed over one darkroom
    host and one salt, builders that record a resource, a width, a height and
    a raw filename, and the two finishing calls `info()` and `url()`.

    JavaScript's mutable `this` is replaced by an immutable `Builder` value:
    each setter returns the updated value, which is what the chained calls of
    the original observe. Truthiness is explicit: an absent or empty string
    and an absent or zero number are "not set". */
module UrlBuilder {
  import opened Wrappers
  import opened Decimal
  import opened Segments
  import opened ActionHash
  import opened UrlConstruction

  /** The error `createBuilder` throws for missing credentials. */
  datatype ConfigError = MissingCredentials

  /** The error `url()` is written to throw for a missing resource. */
  datatype BuildError = MissingResource

  predicate IsTruthyString(s: Option<string>) {
    s.Some? && s.value != ""
  }

  predicate IsTruthyNumber(n: Option<int>) {
    n.Some? && n.value != 0
  }

  /** The function `createBuilder` returns, closed over its two arguments. */
  datatype Factory = Factory(darkroomUrl: string, salt: string)

  /** The fields of a `Builder` object; `_resource`, `_width`, `_height` and
      `_filename` stay `undefined` until their setter runs. */
  datatype Builder = Builder(
    darkroomUrl: string,
    salt: string,
    resource: Option<string>,
    width: Option<int>,
    height: Option<int>,
    filename: Option<string>)

  /** `createBuilder(darkroomUrl, salt)`: throws unless both are truthy. */
  function CreateBuilder(darkroomUrl: Option<string>, salt: Option<string>): (r: Result<Factory, ConfigError>)
    ensures r.Success? <==> IsTruthyString(darkroomUrl) && IsTruthyString(salt)
    ensures r.Success? ==> r.value.darkroomUrl == darkroomUrl.value && r.value.salt == salt.value
  {
    if !IsTruthyString(darkroomUrl) || !IsTruthyString(salt) then Failure(MissingCredentials)
    else Success(Factory(darkroomUrl.value, salt.value))
  }

  /** Calling the factory: `new Builder(darkroomUrl, salt)`. There is no host
      list and no rotation cursor; every builder gets the one host. */
  function NewBuilder(f: Factory): Builder {
    Builder(f.darkroomUrl, f.salt, None, None, None, None)
  }

  function SetResource(b: Builder, resource: string): Builder {
    b.(resource := Some(resource))
  }

  function SetWidth(b: Builder, width: int): Builder {
    b.(width := Some(width))
  }

  function SetHeight(b: Builder, height: int): Builder {
    b.(height := Some(height))
  }

  function SetFilename(b: Builder, filename: string): Builder {
    b.(filename := Some(filename))
  }

  /** One call of a chain such as `.resource(r).width(w).filename(f)`. */
  datatype Setter = Resource(resource: string) | Width(width: int) | Height(height: int) | Filename(filename: string)

  function Apply(b: Builder, s: Setter): Builder {
    match s
    case Resource(r) => SetResource(b, r)
    case Width(w) => SetWidth(b, w)
    case Height(h) => SetHeight(b, h)
    case Filename(f) => SetFilename(b, f)
  }

  function ApplyAll(b: Builder, chain: seq<Setter>): Builder
    decreases |chain|
  {
    if |chain| == 0 then b else ApplyAll(Apply(b, chain[0]), chain[1..])
  }

  /** The four fields a builder collects. */
  datatype Field = ResourceField | WidthField | HeightField | FilenameField

  /** The builder field a setter writes. */
  function FieldOf(s: Setter): Field {
    match s
    case Resource(_) => ResourceField
    case Width(_) => WidthField
    case Height(_) => HeightField
    case Filename(_) => FilenameField
  }

  /** How an unset `_resource` reaches the URL: string concatenation turns
      `undefined` into the text "undefined". */
  function ResourceText(resource: Option<string>): string {
    match resource
    case Some(r) => r
    case None => "undefined"
  }

  /** The action table of `url()`, tried in the source's order. */
  function SelectAction(width: Option<int>, height: Option<int>): Action {
    if IsTruthyNumber(width) && IsTruthyNumber(height) then Parts([Num(width.value), Num(height.value)])
    else if !IsTruthyNumber(width) && IsTruthyNumber(height) then Parts([Num(0), Num(height.value)])
    else if IsTruthyNumber(width) && !IsTruthyNumber(height) then Parts([Num(width.value)])
    else Named("original")
  }

  /** The raw filename with a leading slash, or nothing. */
  function FilenameSuffix(filename: Option<string>): string {
    if IsTruthyString(filename) then "/" + filename.value else ""
  }

  /** The guard of `url()` tests `this.resource`, which is the prototype's
      setter method and so always truthy, not the `_resource` field. */
  const resourceMethodDefined: bool := true

  /** `info()`: the metadata endpoint for the resource. */
  function Info(md5: string -> string, b: Builder): (r: string)
    ensures var lead := b.darkroomUrl + "//info//" + ResourceText(b.resource) + ":";
            |r| >= |lead| && r[..|lead|] == lead
  {
    ConstructUrl(md5, b.darkroomUrl, b.salt, Named("info"), ResourceText(b.resource))
  }

  /** `url()`: the action chosen from width and height, signed, then the raw
      (never escaped) filename appended. It cannot fail: see the guard above. */
  function Url(md5: string -> string, b: Builder): (r: Result<string, BuildError>)
    ensures r.Success?
    ensures |r.value| >= |b.darkroomUrl| + 2 && r.value[..|b.darkroomUrl| + 2] == b.darkroomUrl + "//"
    ensures IsTruthyString(b.filename) ==>
              var tail := "/" + b.filename.value;
              |r.value| >= |tail| && r.value[|r.value| - |tail|..] == tail
    ensures !IsTruthyString(b.filename) && IsMd5Like(md5) ==>
              |r.value| >= 33 && r.value[|r.value| - 33] == ':' && IsDigest(r.value[|r.value| - 32..])
  {
    if !resourceMethodDefined then Failure(MissingResource)
    else
      var signed := ConstructUrl(md5, b.darkroomUrl, b.salt, SelectAction(b.width, b.height), ResourceText(b.resource));
      assert signed[..|b.darkroomUrl| + 2] == b.darkroomUrl + "//";
      Success(signed + FilenameSuffix(b.filename))
  }

  // ---------------------------------------------------------------------------
  // Setters

  /** Every builder a factory makes, whatever setters run on it, keeps the
      factory's host and salt. */
  lemma {:induction false} ChainKeepsCredentials(b: Builder, chain: seq<Setter>)
    ensures ApplyAll(b, chain).darkroomUrl == b.darkroomUrl
    ensures ApplyAll(b, chain).salt == b.salt
    decreases |chain|
  {
    if |chain| > 0 {
      ChainKeepsCredentials(Apply(b, chain[0]), chain[1..]);
    }
  }

  /** A setter writes its own field and no other: setters of different fields
      commute, and of two setters of one field the later wins. */
  lemma SettersCommute(b: Builder, s: Setter, t: Setter)
    ensures FieldOf(s) != FieldOf(t) ==> Apply(Apply(b, s), t) == Apply(Apply(b, t), s)
    ensures FieldOf(s) == FieldOf(t) ==> Apply(Apply(b, s), t) == Apply(b, t)
  {
  }

  /** The URL of any builder made by a factory starts with the factory's host. */
  lemma UrlStartsWithFactoryHost(md5: string -> string, f: Factory, chain: seq<Setter>)
    ensures var r := Url(md5, ApplyAll(NewBuilder(f), chain)).value;
            |r| >= |f.darkroomUrl| && r[..|f.darkroomUrl|] == f.darkroomUrl
  {
    var b := ApplyAll(NewBuilder(f), chain);
    ChainKeepsCredentials(NewBuilder(f), chain);
    var r := Url(md5, b).value;
    assert r[..|f.darkroomUrl|] == r[..|b.darkroomUrl| + 2][..|f.darkroomUrl|];
  }

  // ---------------------------------------------------------------------------
  // The action table

  /** A width or height as it takes effect: unset and zero are the same. */
  function Effective(n: Option<int>): int {
    if IsTruthyNumber(n) then n.value else 0
  }

  /** How a reader of the path recovers width and height from the action:
      `original` means neither, one number is a width, two are width and
      height. */
  function ReadDimensions(action: string): Option<(int, int)> {
    if action == "original" then Some((0, 0))
    else
      var parts := Split(action, '/');
      if |parts| == 1 then
        match ParseInt(parts[0])
        case Some(w) => Some((w, 0))
        case None => None
      else if |parts| == 2 then
        match (ParseInt(parts[0]), ParseInt(parts[1]))
        case (Some(w), Some(h)) => Some((w, h))
        case _ => None
      else None
  }

  /** The action of `url()` as path segments: `[w, h]` when both are set,
      `[0, h]` for height alone, `[w]` for width alone, else `original`. */
  lemma SelectActionSegments(width: Option<int>, height: Option<int>)
    ensures var text := ActionText(SelectAction(width, height));
            && (IsTruthyNumber(width) && IsTruthyNumber(height) ==>
                  Split(text, '/') == [IntToString(width.value), IntToString(height.value)])
            && (!IsTruthyNumber(width) && IsTruthyNumber(height) ==>
                  Split(text, '/') == ["0", IntToString(height.value)])
            && (IsTruthyNumber(width) && !IsTruthyNumber(height) ==>
                  Split(text, '/') == [IntToString(width.value)])
            && (!IsTruthyNumber(width) && !IsTruthyNumber(height) ==> text == "original")
  {
    match SelectAction(width, height)
    case Parts(ps) =>
      ActionTextSplits(ps);
      assert IntToString(0) == "0";
    case Named(_) =>
  }

  /** The action path carries exactly the effective width and height: reading
      it back gives them, and a zero width or height is as good as none. */
  lemma SelectActionReadsBack(width: Option<int>, height: Option<int>)
    ensures ReadDimensions(ActionText(SelectAction(width, height))) == Some((Effective(width), Effective(height)))
  {
    SelectActionSegments(width, height);
    var text := ActionText(SelectAction(width, height));
    if IsTruthyNumber(width) {
      IntToStringRoundTrip(width.value);
      assert text != "original" by {
        if !IsTruthyNumber(height) {
          assert Split(text, '/')[0] == IntToString(width.value);
          assert ParseInt("original") == None by {
            assert !IsDigit("original"[0]);
          }
        }
      }
    }
    if IsTruthyNumber(height) {
      IntToStringRoundTrip(height.value);
      IntToStringRoundTrip(0);
      assert text != "original" by {
        assert |Split(text, '/')| == 2;
        SplitFree("original", '/');
      }
    }
  }

  /** Builders whose effective width or height differ get different action
      paths, and so sign different strings. */
  lemma DistinctSizesDistinctPaths(w1: Option<int>, h1: Option<int>, w2: Option<int>, h2: Option<int>)
    requires (Effective(w1), Effective(h1)) != (Effective(w2), Effective(h2))
    ensures ActionText(SelectAction(w1, h1)) != ActionText(SelectAction(w2, h2))
  {
    SelectActionReadsBack(w1, h1);
    SelectActionReadsBack(w2, h2);
  }

  /** Conversely, builders with the same effective width and height get the
      same action path, however each got there. */
  lemma SameSizesSamePath(w1: Option<int>, h1: Option<int>, w2: Option<int>, h2: Option<int>)
    requires (Effective(w1), Effective(h1)) == (Effective(w2), Effective(h2))
    ensures ActionText(SelectAction(w1, h1)) == ActionText(SelectAction(w2, h2))
  {
  }

  /** A width or height of 0 is falsy: it picks the same action as leaving
      the dimension unset, so `width(0)` alone still signs `original`. */
  lemma ZeroCountsAsUnset(other: Option<int>)
    ensures SelectAction(Some(0), other) == SelectAction(None, other)
    ensures SelectAction(other, Some(0)) == SelectAction(other, None)
    ensures ActionText(SelectAction(Some(0), None)) == "original"
  {
  }

  /** Every action `url()` or `info()` picks can be found again in the URL. */
  lemma SelectActionDelimitable(width: Option<int>, height: Option<int>)
    ensures Delimitable(ActionText(SelectAction(width, height)))
  {
  }

  // ---------------------------------------------------------------------------
  // What the finishing calls produce

  /** A URL without filename reads back into the chosen action, the resource
      text and a signature the service accepts; the action yields the
      builder's effective width and height. */
  lemma UrlReadsBack(md5: string -> string, b: Builder)
    requires IsMd5Like(md5)
    requires !IsTruthyString(b.filename)
    ensures match Decompose(b.darkroomUrl, Url(md5, b).value)
            case Some(p) =>
              && p.uri == ResourceText(b.resource)
              && ReadDimensions(p.action) == Some((Effective(b.width), Effective(b.height)))
            case None => false
    ensures Verify(md5, b.salt, b.darkroomUrl, Url(md5, b).value)
  {
    var action := SelectAction(b.width, b.height);
    SelectActionDelimitable(b.width, b.height);
    SelectActionReadsBack(b.width, b.height);
    DecomposeConstructUrl(md5, b.darkroomUrl, b.salt, action, ResourceText(b.resource));
    var url := ConstructUrl(md5, b.darkroomUrl, b.salt, action, ResourceText(b.resource));
    assert Url(md5, b).value == url + "";
    assert url + "" == url;
  }

  /** What `builder().resource(r).width(w).height(h).url()` promises its
      caller: each setter stored its argument, so the URL reads back into
      exactly that resource, width and height, and the service accepts it. */
  lemma SettersReachUrl(md5: string -> string, f: Factory, r: string, w: int, h: int)
    requires IsMd5Like(md5)
    ensures var url := Url(md5, SetHeight(SetWidth(SetResource(NewBuilder(f), r), w), h)).value;
            && (match Decompose(f.darkroomUrl, url)
                case Some(p) => p.uri == r && ReadDimensions(p.action) == Some((w, h))
                case None => false)
            && Verify(md5, f.salt, f.darkroomUrl, url)
  {
    UrlReadsBack(md5, SetHeight(SetWidth(SetResource(NewBuilder(f), r), w), h));
  }

  /** A filename changes nothing but a `/name` tail, appended raw. */
  lemma FilenameOnlyAppends(md5: string -> string, b: Builder, filename: string)
    requires filename != ""
    ensures Url(md5, SetFilename(b, filename)).value == Url(md5, b.(filename := None)).value + "/" + filename
  {
  }

  /** `info()` reads back into the `info` action and the resource text, and
      neither width, height nor filename has any effect on it. */
  lemma InfoReadsBack(md5: string -> string, b: Builder, width: Option<int>, height: Option<int>, filename: Option<string>)
    requires IsMd5Like(md5)
    ensures match Decompose(b.darkroomUrl, Info(md5, b))
            case Some(p) => p.action == "info" && p.uri == ResourceText(b.resource)
            case None => false
    ensures Verify(md5, b.salt, b.darkroomUrl, Info(md5, b))
    ensures Info(md5, b.(width := width, height := height, filename := filename)) == Info(md5, b)
  {
    assert ActionText(Named("info")) == "info";
    DecomposeConstructUrl(md5, b.darkroomUrl, b.salt, Named("info"), ResourceText(b.resource));
    assert Decompose(b.darkroomUrl, Info(md5, b))
           == Some(SignedPath("info", ResourceText(b.resource), Sign(md5, b.salt, WrapAction(Named("info")), ResourceText(b.resource))));
  }

  /** The `!this.resource` guard of `url()` never fires: without a resource `url()` still
      succeeds and signs the text "undefined". */
  lemma UrlWithoutResource(md5: string -> string, f: Factory)
    requires IsMd5Like(md5)
    ensures Url(md5, NewBuilder(f)).Success?
    ensures match Decompose(f.darkroomUrl, Url(md5, NewBuilder(f)).value)
            case Some(p) => p.action == "original" && p.uri == "undefined"
            case None => false
  {
    var b := NewBuilder(f);
    assert SelectAction(b.width, b.height) == Named("original");
    assert ActionText(Named("original")) == "original";
    DecomposeConstructUrl(md5, b.darkroomUrl, b.salt, Named("original"), "undefined");
    var url := ConstructUrl(md5, b.darkroomUrl, b.salt, Named("original"), "undefined");
    assert Url(md5, b).value == url + "";
    assert url + "" == url;
    assert Decompose(f.darkroomUrl, url)
           == Some(SignedPath("original", "undefined", Sign(md5, b.salt, WrapAction(Named("original")), "undefined")));
  }

  /** The width-only case of the test suite: the URL has `//` after the host
      and before the resource, where the test expects `host/100/resource`. */
  lemma WidthOnlyExample(md5: string -> string, f: Factory, resource: string, filename: string)
    requires filename != ""
    ensures Url(md5, SetFilename(SetWidth(SetResource(NewBuilder(f), resource), 100), filename)).value
            == f.darkroomUrl + "//100//" + resource + ":" + md5("/100/" + resource + f.salt) + "/" + filename
  {
    var b := SetFilename(SetWidth(SetResource(NewBuilder(f), resource), 100), filename);
    assert NatToString(100) == "100" by {
      assert NatToString(1) == "1";
      assert NatToString(10) == "10";
    }
    assert SelectAction(b.width, b.height) == Parts([Num(100)]);
    assert RenderParts([Num(100)]) == ["100"];
    assert ActionText(Parts([Num(100)])) == "100";
    assert WrapAction(Parts([Num(100)])) == "/100/";
  }
}

=== FILE: wrappers.dfy ===
/** The two shapes a JavaScript value takes in this model besides a plain
    value: possibly `undefined`, or the outcome of a call that may throw. */
module Wrappers {

  /** A value that may be `undefined`. */
  datatype Option<+T> = None | Some(value: T)

  /** The value a call returns, or the error it throws. */
  datatype Result<+R, +E> = Success(value: R) | Failure(error: E)
}
